=== FILE: README.md ===
# Over-by-over score prediction game: a Dafny model of its game logic

The system is a live cricket mini-game. An administrator opens a round. Teams
predict the runs and wickets of the next over. The administrator then enters the
actual result. Every team with a non-zero runs guess and a team row is scored,
the predictions are cleared,
the round closes, and the leaderboard is recomputed with tied scores sharing a
position.

The program is a browser front end talking to a hosted database. This model
keeps the logic inside its handlers and writes it as pure Dafny functions and
methods over immutable values. Every database table is a value that is passed in
and returned:

- `teams` is a `map<string, Option<int>>` from team name to score, or a
  `seq<TeamRow>` when it is read back in descending order.
- `predictions` is a `seq<Prediction>` in store order.

The round flag is a `Flag` value. Calling a subscribed callback is recorded as a
`Call` in an output sequence. The flag is not a database table: it lives in one
loaded copy of the app, that is one browser tab (see below).

| file | module | what it models |
|---|---|---|
| optional.dfy | `Optional` | empty field / NULL column / missing saved value |
| prediction_state.dfy | `PredictionState` | the shared round flag, its subscriber list, `getStatus`, the effective `setStatus`, `subscribe` and its unsubscribe closure |
| input_rules.dfy | `InputRules` | the keystroke range check used by both forms (runs 0..36, wickets 0..4) |
| prediction_table.dfy | `PredictionTable` | the predictions table: reset to zero, update, upsert by team name |
| scoring.dfy | `Scoring` | the per-prediction score change, the zero floor, scoring all rows of a round |
| ranking.dfy | `Ranking` | the position walk shared by both dashboards, the capped admin leaderboard, the team's own standing |
| admin_dashboard.dfy | `AdminDashboard` | entering results (score, clear, close) and the open/close toggle |
| team_dashboard.dfy | `TeamDashboard` | entry check, the "new prediction" gate, the page's subscribed copy of the flag |
| prediction_page.dfy | `PredictionPage` | the prediction form, its redirect guard and its submission |
| round.dfy | `Round` | one full round across the pages |

Decisions worth knowing:

- **Scores can be NULL.** A score is `Option<int>`, with `None` for NULL.
  - The program adds a score change to a possibly-NULL score. In JavaScript that
    addition treats NULL as 0, and so does `NewScore`.
  - The team page reports `score || 0`, which is `GetOr(0)`.
  - The ranking walk starts with "last score = NULL". So a first row whose score
    is NULL still gets position 1.
  - `SortedDesc` places NULL above every number, the database's default for a
    descending order.
- **Keystrokes as `Input`.** What `parseInt` makes of a keystroke is the datatype
  `Input = Blank | Numeral(n) | Unparsable`. A form field holds `Option<int>`,
  with `None` for the empty string.
- **Predictions are a sequence, not a map.** The upsert looks up the team's row
  with a query that asks for exactly one row. That lookup finds nothing when zero
  rows match, and also when several rows match. So "update or insert" inserts a
  duplicate if duplicates already exist. `Upsert` models this as written.
  - `Upsert` proves "exactly one row, equal to the submitted values" from any
    table with at most one row for the team.
  - It keeps a table with unique team names unique.
  - `UpsertWithDuplicates` shows the duplicate case.
- **Empty team names are not reset.** The reset that clears predictions filters
  on `team_name <> ''`, so a row whose team name is empty is not reset.
  `ResetAll` models this. The "all predictions read (0, 0)" properties are stated
  for rows with a non-empty team name.

Behaviour worth knowing:

- **Submitting does not check the round.** Submitting a prediction checks neither
  that the round is open nor that the values are in range
  (src/Prediction.js:102-157).
  - Ranges are enforced only by the keystroke filter (`InputRules`).
  - A closed round only sends the page away: the entry guard `RedirectOnEntry`
    and the status callback (`ClosingRedirects`, `StaysOnlyWhileOpen`).
  - `PredictionPage.Submit` therefore takes no flag.
- **The flag starts closed unless a saved status is loaded** (`Load`); a loaded
  status may be open.
- **Entering results always closes the round.** It sets the flag to closed
  whatever its previous value.
- **Rows with an empty team name are skipped by the reset** (see above).
- **A 0-run prediction counts as no prediction.** Scoring reads only rows whose
  runs guess is non-zero (src/AdminDashboard.js:217), so a team that predicts a
  maiden over is not scored at all, exactly like a team that did not predict
  (`ScoreOne`, `ScoreRows`, `Round.FullRound`).
- **The flag is per browser tab.** The status and its subscriber list are module
  variables of one loaded app (src/utils/predictionState.js:2-3), seeded only
  from that browser's saved value (lines 27-31). The administrator's
  `setStatus` reaches only pages in the same tab. A team page on another device
  reads its own flag, normally closed, and is never told of changes, so its
  "new prediction" gate and the prediction page's entry guard follow that
  device's flag. Every lemma here is about one flag, that is one tab.
- **Duplicate rows are kept.** When a team already has two or more prediction
  rows, submitting appends one more and leaves the old ones as they were
  (`UpsertWithDuplicates`); scoring then reads every one of them.
- **The team page never unsubscribes.** It subscribes inside an asynchronous
  helper and returns the unsubscribe function from that helper, not from the
  effect (src/TeamDashBoard.js:53-79), so the cleanup is never called. Every
  visit leaves its callback in the list, and each later `setStatus` still calls
  it (`MountAll`, `StaleMountsStillCalled`).

## Model

| member | source | states |
|---|---|---|
| PredictionState.Load | src/utils/predictionState.js:27-31 | The flag starts with no subscribers. It is closed when nothing was saved (the default at line 3). Otherwise it holds the saved status. |
| PredictionState.Notify | src/utils/predictionState.js:44 | One call per subscriber, in subscription order, each carrying the new status. |
| PredictionState.SetStatus | src/utils/predictionState.js:37-45 | `getStatus` then returns the new status. The subscriber list is unchanged. Every subscriber is called exactly once, in order, with that status. |
| PredictionState.Subscribe | src/utils/predictionState.js:17-18 | The callback goes at the end. Existing subscribers keep their places. The status is unchanged. |
| PredictionState.Without | src/utils/predictionState.js:21 | Filtering removes every occurrence of the callback. It keeps every other callback as many times as before. |
| PredictionState.Unsubscribe | src/utils/predictionState.js:20-22 | The callback is no longer subscribed. The others keep their multiplicity. The status is unchanged. |
| PredictionState.WithoutConcat | src/utils/predictionState.js:21 | Removal works piecewise over concatenation, so the survivors keep their relative order. |
| PredictionState.WithoutAbsent | src/utils/predictionState.js:21 | Removing a callback that is not subscribed leaves the list unchanged. |
| PredictionState.UnsubscribeIdempotent | src/utils/predictionState.js:20-22 | Calling the unsubscribe function twice has the same effect as calling it once. |
| PredictionState.SubscribeUnsubscribe | src/utils/predictionState.js:17-22 | Subscribing a new callback and then calling its unsubscribe function restores the flag exactly. |
| PredictionState.UnsubscribeKeepsOthers | src/utils/predictionState.js:20-22 | Unsubscribing one callback never drops a different one. |
| PredictionState.StatusIsLastSet | src/utils/predictionState.js:37-38 | After any history of set/subscribe/unsubscribe calls, `getStatus` is the last value passed to `setStatus`. With no such call it is the initial value. |
| PredictionState.ClosedUntilSet | src/utils/predictionState.js:3 | With nothing saved, the status reads closed until `setStatus` is first called. |
| PredictionState.SetMany | src/utils/predictionState.js:37-45 | A series of `setStatus` calls leaves the flag that running the same calls as a history gives. The subscribers are unchanged, and the status is the last one set, or the old status when there were none. |
| InputRules.Accept | src/AdminDashboard.js:297-309 | The empty string empties the field. A number in 0..max is stored. An unparsable or out-of-range entry leaves the field as it was. A valid field stays valid. |
| InputRules.EditsStayValid | src/Prediction.js:85-99 | A field that starts empty holds only nothing or an in-range number, after any sequence of keystrokes. |
| InputRules.RejectedEditIsNoOp | src/Prediction.js:85-99 | A rejected keystroke leaves the field exactly as if it had never been typed. |
| PredictionTable.ResetAll | src/AdminDashboard.js:267-271 | Every row is kept, with its team. Rows with a non-empty team name read (0, 0). A row with an empty team name is untouched. |
| PredictionTable.ResetAllIdempotent | src/AdminDashboard.js:164-171 | Clearing the predictions twice equals clearing them once. |
| PredictionTable.Update | src/Prediction.js:122-132 | The team's rows get the submitted runs and wickets. No other row changes. |
| PredictionTable.Upsert | src/Prediction.js:115-144 | Other teams' rows are unchanged. At most one row is added, and it is the submission. When the team does not have exactly one row, every existing row is kept as it was. A team with at most one row before has exactly one row after, and it equals the submission. Unique team names stay unique. |
| PredictionTable.UpsertWithDuplicates | src/Prediction.js:116-120 | With two or more rows for the team, the lookup finds none, so one more row is inserted and the team's existing rows stay exactly as they were. |
| Scoring.ScoreDelta | src/AdminDashboard.js:223-244 | The change is the wicket term (+10 or -5) minus the absolute run error. It is at most 10, and exactly 10 only for an exact runs and wickets match. For in-range inputs it is at least -41. |
| Scoring.NewScore | src/AdminDashboard.js:253-255 | The new score is never negative. It is either 0 or the stored score (NULL as 0) plus the change, and never below that sum. |
| Scoring.ScoreOne | src/AdminDashboard.js:246-264 | Only the predicting team's score changes, and only when its runs guess is non-zero and its team row exists. A 0-run prediction changes nothing. |
| Scoring.ScoreRows | src/AdminDashboard.js:213-265 | The same teams remain. Teams with no active prediction keep their score. Teams with one get a non-negative score. With one row per team, each scored team gets exactly `NewScore(old, delta)`. |
| Scoring.ExactPredictionExample | src/AdminDashboard.js:226-255 | A perfect prediction against a score of 50 gives 60. |
| Scoring.FloorExample | src/AdminDashboard.js:226-255 | Missing by 5 runs with the wrong wickets costs 10. A score of 3 then floors at 0. |
| Ranking.Position | src/AdminDashboard.js:128-136 | The position of row `i` lies between 1 and `i + 1`. |
| Ranking.PositionIsTieStart | src/TeamDashBoard.js:97-106 | A position is one more than the index where the row's run of equal scores starts. The row just before that run has a different score. |
| Ranking.CompetitionRank | src/AdminDashboard.js:128-142 | On a descending list, the position is 1 plus the number of teams with a strictly higher score (competition ranking). |
| Ranking.PositionMonotone | src/AdminDashboard.js:128-142 | Positions never decrease down the list. |
| Ranking.PositionPrefix | src/TeamDashBoard.js:89-106 | A row's position does not depend on rows after it. So the capped admin list and the uncapped team lookup give the same position to every row both see. |
| Ranking.TieExample | src/AdminDashboard.js:128-142 | Scores 80, 80, 60, 60, 10 get positions 1, 1, 3, 3, 5. |
| Ranking.Rank | src/AdminDashboard.js:128-142 | The mutable walk (position and last score carried across rows) computes `Position` for every row. |
| Ranking.Leaderboard | src/AdminDashboard.js:119-142 | At most 50 entries. They are the first rows in their given order, with names and scores unchanged, and each has the position it has in the full list. |
| Ranking.FirstNamed | src/TeamDashBoard.js:108-113 | The index of the first row with the name, or the list length when none matches. No earlier row has the name. |
| Ranking.FindStanding | src/TeamDashBoard.js:89-120 | The team is found iff some row has its name. The first such row is reported, with its score (NULL as 0) and its position, which lies in 1..index+1. Otherwise the result is score 0, position 0. |
| AdminDashboard.EditRuns | src/AdminDashboard.js:297-302 | Only the runs field changes, and it stays within 0..36 or empty. |
| AdminDashboard.EditWickets | src/AdminDashboard.js:304-309 | Only the wickets field changes, and it stays within 0..4 or empty. |
| AdminDashboard.SubmitResults | src/AdminDashboard.js:202-294 | Either field empty: the error is set and nothing else changes. Otherwise active predictions are scored, named rows read (0, 0), rows with an empty team name are untouched, and the flag is closed with every subscriber told so. The form is emptied. |
| AdminDashboard.Toggle | src/AdminDashboard.js:152-181 | The flag is set to the negation of the page's own copy, the copy flips with it, and subscribers are told the new status. Closing clears named predictions and leaves rows with an empty team name untouched; opening leaves them unchanged. Scores never change. |
| AdminDashboard.CloseIsIdempotent | src/AdminDashboard.js:152-171 | Close, reopen and close again leaves the predictions exactly as the first close did. |
| TeamDashboard.VerifyTeam | src/TeamDashBoard.js:29-59 | An empty name goes home. Otherwise the team is verified exactly when a team row with that name exists. |
| TeamDashboard.VerifiedIffListed | src/TeamDashBoard.js:39-44 | If the descending list holds exactly the stored teams, the entry check passes exactly when the standings walk finds the team. |
| TeamDashboard.StartNewPrediction | src/TeamDashBoard.js:132-139 | The page goes to the form, for this team, exactly when its copy of the flag says open. Otherwise it shows only an error. |
| TeamDashboard.Observe | src/TeamDashBoard.js:67-69 | The page's copy of the flag after a run of callback calls: the status of the last call to its own callback, or its earlier value. Pinned down by `ObserveUniform` and `AvailabilityFollowsFlag`. |
| TeamDashboard.ObserveUniform | src/TeamDashBoard.js:67-69 | If every call carries one status, the page's copy becomes that status when its own callback was among them. Otherwise the copy is unchanged. |
| TeamDashboard.AvailabilityFollowsFlag | src/TeamDashBoard.js:67-69 | While subscribed, every `setStatus` brings the page's copy up to the global status. A callback not in the list keeps its old copy (the team page itself never leaves the list). |
| TeamDashboard.GateFollowsFlag | src/TeamDashBoard.js:132-139 | For a subscribed page, the form opens exactly when the last status set was open. |
| TeamDashboard.MountAll | src/TeamDashBoard.js:53-79 | Each visit appends its callback and none is removed: the list is the earlier subscribers followed by one callback per visit, and the status is unchanged. |
| TeamDashboard.StaleMountsStillCalled | src/TeamDashBoard.js:53-79 | After several visits, a `setStatus` makes one call per earlier subscriber plus one per visit, and every visit's callback receives the new status. |
| PredictionPage.EditRuns | src/Prediction.js:85-91 | Only the runs field changes, and it stays within 0..36 or empty. |
| PredictionPage.EditWickets | src/Prediction.js:93-99 | Only the wickets field changes, and it stays within 0..4 or empty. |
| PredictionPage.ClosingRedirects | src/Prediction.js:36-43 | A subscribed page is sent away by a `setStatus` exactly when the new status is closed. |
| PredictionPage.RedirectedIffSomeClose | src/Prediction.js:36-43 | A subscribed page is sent away by a series of `setStatus` calls exactly when at least one of them closes the round. |
| PredictionPage.RedirectOnEntry | src/Prediction.js:30-34 | The page leaves on entry without a team name or while the round reads closed. Its consequence over the page's life is stated by `StaysOnlyWhileOpen`. |
| PredictionPage.StaysOnlyWhileOpen | src/Prediction.js:30-43 | A page that passed the entry guard (team name present, round open) and subscribed is sent away exactly when some later `setStatus` closes the round. While it has not been sent away, the round reads open. |
| PredictionPage.Submit | src/Prediction.js:102-157 | Either field empty: the error is set and nothing is written. Otherwise other teams' rows are unchanged, at most one row is added and it is this team's submission. A team with at most one row ends with exactly one, equal to the submission. The form is emptied. |
| Round.FullRound | src/AdminDashboard.js:202-277 | Open, one team submits, results are entered. The round ends closed, named rows read (0, 0), and, when its runs guess is non-zero and its team row exists, that team's score moved by exactly its prediction's change, floored at 0. A 0-run guess leaves its score unchanged. |

## Left out

- **Store calls.** Every database call is a value passed in and out. This covers
  queries, `order`, `limit`, updates, inserts and the `single` lookup. The order
  the store returns is a precondition, `SortedDesc`, and only the reference-rank
  lemma needs it.
- **Failures.** Store failures, the error banners they raise, and partial
  application are not modelled. Scoring updates teams one at a time without a
  transaction, so a failure mid-loop leaves earlier teams scored. The model has no
  failing store, so it shows no partial state.
- **Concurrency.** Two concurrent result submissions, or a submission racing a
  close, can interleave. The model runs each action to completion.
- **Parsing text.** `parseInt` on the raw text is abstracted as `Input`. The
  field keeps the typed text, and the number it parses to is what the model
  stores.
- **Realtime channels.** These are I/O:
  - the admin's refresh on prediction changes (src/AdminDashboard.js:63-85);
  - the `predictions_status` row written on close (src/AdminDashboard.js:173-180);
  - the prediction page's listener for that row (src/Prediction.js:57-82).
- **Saving the flag.** Writing the flag to browser storage is I/O. Reading it back
  is modelled only as the optional saved value given to `Load`.
- **UI plumbing.** Timers, navigation, the admin login check, loading and
  processing indicators, success messages, the team-count statistic, the unused
  current-over counter and all rendering are left out.
- **Admin.js, Welcome.js and App.js.** These hold the hardcoded credential
  comparison, a trim-and-navigate entry form and the route table.
- **Early return on an empty name.** The team page returns early when it has no
  team name. That path is only reachable through `VerifyTeam`'s `MissingName`
  case, so `FindStanding` does not repeat it.
- **Team names are unique.** The teams table is a map, so each name is one row.
- **Duplicate callbacks.** A callback subscribed twice is called twice per
  `setStatus`, once per subscription. `Notify` states this as "once per
  subscriber entry".

=== FILE: admin_dashboard.dfy ===
/**
 * The administrator's control panel: opening and closing the round, and
 * entering the actual result of an over, which scores every active prediction,
 * clears the predictions table and closes the round.
 */
module AdminDashboard {
  import opened Optional
  import opened PredictionState
  import opened PredictionTable
  import opened Scoring
  import InputRules

  /** The two result fields; `None` is an empty field. */
  datatype ResultsForm = ResultsForm(runs: Option<int>, wickets: Option<int>)

  /**
   * The state the panel acts on: the round flag of the panel's own browser tab,
   * and the team scores and predictions table held by the database.
   */
  datatype Game = Game(flag: Flag, scores: Scores, predictions: seq<Prediction>)

  datatype AdminError = MissingResults

  /** The panel's own state: its copy of the round flag, the results form and the error banner. */
  datatype Admin = Admin(open: bool, form: ResultsForm, error: Option<AdminError>)

  /** The shared state and panel state after an action, with the flag callbacks it invoked. */
  datatype Transition = Transition(game: Game, admin: Admin, calls: seq<Call>)

  /** Typing in the actual-runs field. */
  function EditRuns(a: Admin, input: InputRules.Input): (r: Admin)
    ensures r.open == a.open && r.error == a.error && r.form.wickets == a.form.wickets
    ensures input.Blank? ==> r.form.runs.None?
    ensures input.Numeral? && 0 <= input.n <= InputRules.MaxRuns ==> r.form.runs == Some(input.n)
    ensures input.Unparsable? || (input.Numeral? && (input.n < 0 || input.n > InputRules.MaxRuns)) ==> r.form.runs == a.form.runs
    ensures InputRules.Valid(a.form.runs, InputRules.MaxRuns) ==> InputRules.Valid(r.form.runs, InputRules.MaxRuns)
  {
    a.(form := a.form.(runs := InputRules.RunsChange(a.form.runs, input)))
  }

  /** Typing in the actual-wickets field. */
  function EditWickets(a: Admin, input: InputRules.Input): (r: Admin)
    ensures r.open == a.open && r.error == a.error && r.form.runs == a.form.runs
    ensures input.Blank? ==> r.form.wickets.None?
    ensures input.Numeral? && 0 <= input.n <= InputRules.MaxWickets ==> r.form.wickets == Some(input.n)
    ensures input.Unparsable? || (input.Numeral? && (input.n < 0 || input.n > InputRules.MaxWickets)) ==> r.form.wickets == a.form.wickets
    ensures InputRules.Valid(a.form.wickets, InputRules.MaxWickets) ==> InputRules.Valid(r.form.wickets, InputRules.MaxWickets)
  {
    a.(form := a.form.(wickets := InputRules.WicketsChange(a.form.wickets, input)))
  }

  /**
   * Every row of a named team reads (0, 0), a row with an empty team name is
   * untouched, and the rows and their teams are the same as in `before`.
   */
  predicate Cleared(before: seq<Prediction>, after: seq<Prediction>) {
    && |after| == |before|
    && (forall i :: 0 <= i < |after| ==> after[i].team == before[i].team)
    && (forall i :: 0 <= i < |after| && before[i].team != "" ==> after[i].runs == 0 && after[i].wickets == 0)
    && (forall i :: 0 <= i < |after| && before[i].team == "" ==> after[i] == before[i])
  }

  /** Every subscriber was called once, in order, with `status`. */
  predicate Broadcast(f: Flag, calls: seq<Call>, status: bool) {
    |calls| == |f.subscribers| && forall i :: 0 <= i < |calls| ==> calls[i] == Call(f.subscribers[i], status)
  }

  /**
   * Enter the actual result. With either field empty only the error banner
   * changes. Otherwise every active prediction is scored, all predictions are
   * cleared, the round is closed and the form is emptied.
   */
  function SubmitResults(g: Game, a: Admin): (s: Transition)
    ensures s.admin.error.Some? <==> a.form.runs.None? || a.form.wickets.None?
    ensures s.admin.error.Some? ==> s.game == g && s.calls == [] && s.admin.form == a.form && s.admin.open == a.open
    ensures s.admin.error.None? ==>
      && !GetStatus(s.game.flag) && !s.admin.open
      && s.game.flag.subscribers == g.flag.subscribers
      && Broadcast(g.flag, s.calls, false)
      && s.admin.form == ResultsForm(None, None)
      && Cleared(g.predictions, s.game.predictions)
      && s.game.scores.Keys == g.scores.Keys
      && (forall t :: t in g.scores && !HasActive(g.predictions, t) ==> s.game.scores[t] == g.scores[t])
      && (forall t :: t in g.scores && HasActive(g.predictions, t) ==> s.game.scores[t].Some? && s.game.scores[t].value >= 0)
    ensures s.admin.error.None? && UniqueTeams(g.predictions) ==>
      var o := Outcome(a.form.runs.value, a.form.wickets.value);
      forall i :: 0 <= i < |g.predictions| && Active(g.predictions[i]) && g.predictions[i].team in g.scores ==>
        s.game.scores[g.predictions[i].team]
          == Some(NewScore(g.scores[g.predictions[i].team], ScoreDelta(o, g.predictions[i])))
  {
    if a.form.runs.None? || a.form.wickets.None? then
      Transition(g, a.(error := Some(MissingResults)), [])
    else
      var o := Outcome(a.form.runs.value, a.form.wickets.value);
      var scores := ScoreRows(g.scores, o, g.predictions);
      var closed := SetStatus(g.flag, false);
      Transition(Game(closed.flag, scores, ResetAll(g.predictions)),
           Admin(false, ResultsForm(None, None), None),
           closed.calls)
  }

  /**
   * Flip the round flag. Closing an open round also clears every prediction;
   * opening a closed round leaves them as they are. Scores never change.
   */
  function Toggle(g: Game, a: Admin): (s: Transition)
    ensures GetStatus(s.game.flag) == !a.open && s.admin.open == !a.open
    ensures s.game.flag.subscribers == g.flag.subscribers
    ensures Broadcast(g.flag, s.calls, !a.open)
    ensures s.admin.error.None? && s.admin.form == a.form
    ensures s.game.scores == g.scores
    ensures a.open ==> Cleared(g.predictions, s.game.predictions)
    ensures !a.open ==> s.game.predictions == g.predictions
  {
    var flipped := SetStatus(g.flag, !a.open);
    var predictions := if a.open then ResetAll(g.predictions) else g.predictions;
    Transition(Game(flipped.flag, g.scores, predictions), a.(open := !a.open, error := None), flipped.calls)
  }

  /**
   * Closing, reopening without any submission, and closing again leaves the
   * predictions exactly as the first close left them.
   */
  lemma CloseIsIdempotent(g: Game, a: Admin)
    requires a.open
    ensures var once := Toggle(g, a);
      var reopened := Toggle(once.game, once.admin);
      var again := Toggle(reopened.game, reopened.admin);
      again.game.predictions == once.game.predictions && !GetStatus(again.game.flag)
  {
    ResetAllIdempotent(g.predictions);
  }
}

=== FILE: input_rules.dfy ===
/**
 * The range check both the admin results form and the team prediction form
 * apply to every keystroke in their runs and wickets fields. A field holds
 * either nothing (the empty string) or a number; an edit is accepted only if it
 * empties the field or parses to a number in range, and is otherwise ignored.
 */
module InputRules {
  import opened Optional

  /** Most runs in one over: six legal balls, six runs each. */
  const MaxRuns := 36
  /** Most wickets a prediction or result may name for one over. */
  const MaxWickets := 4

  /**
   * What a keystroke leaves in the input box, as `parseInt` sees it: the empty
   * string, text that parses to the integer `n`, or text that does not parse.
   */
  datatype Input = Blank | Numeral(n: int) | Unparsable

  /** A field holds nothing, or a number in `0..max`. */
  predicate Valid(field: Option<int>, max: int) {
    field.None? || 0 <= field.value <= max
  }

  /** The field after the edit `input`, for a field whose limit is `max`. */
  function Accept(current: Option<int>, input: Input, max: int): (r: Option<int>)
    ensures input.Blank? ==> r == None
    ensures input.Numeral? && 0 <= input.n <= max ==> r == Some(input.n)
    ensures input.Unparsable? ==> r == current
    ensures input.Numeral? && (input.n < 0 || input.n > max) ==> r == current
    ensures Valid(current, max) ==> Valid(r, max)
  {
    match input
    case Blank => None
    case Numeral(n) => if n >= 0 && n <= max then Some(n) else current
    case Unparsable => current
  }

  function RunsChange(current: Option<int>, input: Input): Option<int> {
    Accept(current, input, MaxRuns)
  }

  function WicketsChange(current: Option<int>, input: Input): Option<int> {
    Accept(current, input, MaxWickets)
  }

  /** The field after a whole sequence of edits. */
  function Edits(current: Option<int>, inputs: seq<Input>, max: int): Option<int>
    decreases |inputs|
  {
    if inputs == [] then current
    else Accept(Edits(current, inputs[..|inputs| - 1], max), inputs[|inputs| - 1], max)
  }

  /**
   * A field that starts empty never holds an out-of-range value, whatever is
   * typed into it.
   */
  lemma {:induction false} EditsStayValid(inputs: seq<Input>, max: int)
    requires 0 <= max
    ensures Valid(Edits(None, inputs, max), max)
    decreases |inputs|
  {
    if inputs != [] {
      EditsStayValid(inputs[..|inputs| - 1], max);
    }
  }

  /** A rejected edit is invisible: the field reads as if it had never been typed. */
  lemma RejectedEditIsNoOp(current: Option<int>, inputs: seq<Input>, bad: Input, max: int)
    requires bad.Unparsable? || (bad.Numeral? && (bad.n < 0 || bad.n > max))
    ensures Edits(current, inputs + [bad], max) == Edits(current, inputs, max)
  {
    assert (inputs + [bad])[..|inputs|] == inputs;
  }
}

=== FILE: optional.dfy ===
/** A value that may be absent: an empty form field, a NULL column, a missing saved status. */
module Optional {

  datatype Option<+T> = None | Some(value: T) {

    /** The wrapped value, or `default` when absent. */
    function GetOr(default: T): T {
      match this
      case Some(v) => v
      case None => default
    }
  }
}

=== FILE: prediction_page.dfy ===
/**
 * The team's prediction form. Each field follows the shared input rules; a
 * submission with both fields filled stores the prediction under the team's
 * name and empties the form. The page leaves when the round is closed on entry
 * or closes later; the submission itself does not consult the round flag.
 */
module PredictionPage {
  import opened Optional
  import opened PredictionState
  import opened PredictionTable
  import InputRules

  /** The two prediction fields; `None` is an empty field. */
  datatype Form = Form(runs: Option<int>, wickets: Option<int>)

  datatype PageError = MissingPrediction

  datatype Page = Page(form: Form, error: Option<PageError>)

  /** The predictions table and the page after a submission. */
  datatype Submission = Submission(rows: seq<Prediction>, page: Page)

  function EditRuns(p: Page, input: InputRules.Input): (r: Page)
    ensures r.error == p.error && r.form.wickets == p.form.wickets
    ensures input.Blank? ==> r.form.runs.None?
    ensures input.Numeral? && 0 <= input.n <= InputRules.MaxRuns ==> r.form.runs == Some(input.n)
    ensures input.Unparsable? || (input.Numeral? && (input.n < 0 || input.n > InputRules.MaxRuns)) ==> r.form.runs == p.form.runs
    ensures InputRules.Valid(p.form.runs, InputRules.MaxRuns) ==> InputRules.Valid(r.form.runs, InputRules.MaxRuns)
  {
    p.(form := p.form.(runs := InputRules.RunsChange(p.form.runs, input)))
  }

  function EditWickets(p: Page, input: InputRules.Input): (r: Page)
    ensures r.error == p.error && r.form.runs == p.form.runs
    ensures input.Blank? ==> r.form.wickets.None?
    ensures input.Numeral? && 0 <= input.n <= InputRules.MaxWickets ==> r.form.wickets == Some(input.n)
    ensures input.Unparsable? || (input.Numeral? && (input.n < 0 || input.n > InputRules.MaxWickets)) ==> r.form.wickets == p.form.wickets
    ensures InputRules.Valid(p.form.wickets, InputRules.MaxWickets) ==> InputRules.Valid(r.form.wickets, InputRules.MaxWickets)
  {
    p.(form := p.form.(wickets := InputRules.WicketsChange(p.form.wickets, input)))
  }

  /** On entry the page leaves for the dashboard without a team name or while the round is closed. */
  function RedirectOnEntry(team: string, status: bool): bool {
    team == "" || !status
  }

  /** The page's status callback navigates away when it is called with `false`. */
  predicate RedirectedBy(calls: seq<Call>, me: CallbackId) {
    exists i :: 0 <= i < |calls| && calls[i].callback == me && !calls[i].status
  }

  /**
   * A page still subscribed when the flag is set is sent away exactly when the
   * flag is set to closed.
   */
  lemma ClosingRedirects(f: Flag, me: CallbackId, status: bool)
    requires me in f.subscribers
    ensures RedirectedBy(SetStatus(f, status).calls, me) <==> !status
  {
    var calls := SetStatus(f, status).calls;
    var k :| 0 <= k < |f.subscribers| && f.subscribers[k] == me;
    assert calls[k] == Call(me, status);
  }

  lemma RedirectedByConcat(a: seq<Call>, b: seq<Call>, me: CallbackId)
    ensures RedirectedBy(a + b, me) <==> RedirectedBy(a, me) || RedirectedBy(b, me)
  {
    if RedirectedBy(a + b, me) {
      var i :| 0 <= i < |a + b| && (a + b)[i].callback == me && !(a + b)[i].status;
      if i >= |a| {
        assert b[i - |a|] == (a + b)[i];
      }
    }
    if RedirectedBy(a, me) {
      var j :| 0 <= j < |a| && a[j].callback == me && !a[j].status;
      assert (a + b)[j] == a[j];
    }
    if RedirectedBy(b, me) {
      var j :| 0 <= j < |b| && b[j].callback == me && !b[j].status;
      assert (a + b)[|a| + j] == b[j];
    }
  }

  /** A subscribed page is sent away by a series of `setStatus` calls exactly when one of them closes the round. */
  lemma {:induction false} RedirectedIffSomeClose(f: Flag, me: CallbackId, statuses: seq<bool>)
    requires me in f.subscribers
    ensures RedirectedBy(SetMany(f, statuses).calls, me) <==> false in statuses
    decreases |statuses|
  {
    if statuses != [] {
      var n := |statuses|;
      var init := statuses[..n - 1];
      RedirectedIffSomeClose(f, me, init);
      var prev := SetMany(f, init);
      RedirectedByConcat(prev.calls, SetStatus(prev.flag, statuses[n - 1]).calls, me);
      ClosingRedirects(prev.flag, me, statuses[n - 1]);
      assert statuses == init + [statuses[n - 1]];
    }
  }

  /**
   * A page that passed the entry guard and subscribed its status callback is
   * sent away by later `setStatus` calls exactly when one of them closes the
   * round, and as long as it has not been sent away the round reads open.
   */
  lemma StaysOnlyWhileOpen(f: Flag, team: string, me: CallbackId, statuses: seq<bool>)
    requires !RedirectOnEntry(team, GetStatus(f))
    ensures var s := SetMany(Subscribe(f, me), statuses);
      && (RedirectedBy(s.calls, me) <==> false in statuses)
      && (!RedirectedBy(s.calls, me) ==> GetStatus(s.flag))
  {
    var g := Subscribe(f, me);
    assert g.subscribers[|f.subscribers|] == me;
    RedirectedIffSomeClose(g, me, statuses);
    if statuses != [] && !RedirectedBy(SetMany(g, statuses).calls, me) {
      assert statuses[|statuses| - 1];
    }
  }

  /**
   * Submit the form. With either field empty only the error banner changes.
   * Otherwise the prediction is upserted under `team` and the form is emptied.
   */
  function Submit(rows: seq<Prediction>, team: string, p: Page): (s: Submission)
    ensures s.page.error.Some? <==> p.form.runs.None? || p.form.wickets.None?
    ensures s.page.error.Some? ==> s.rows == rows && s.page.form == p.form
    ensures s.page.error.None? ==> s.page.form == Form(None, None)
    ensures |rows| <= |s.rows| <= |rows| + 1
    ensures s.page.error.None? ==> forall i :: 0 <= i < |rows| && rows[i].team != team ==> s.rows[i] == rows[i]
    ensures s.page.error.None? ==> forall i :: |rows| <= i < |s.rows| ==>
      s.rows[i] == Prediction(team, p.form.runs.value, p.form.wickets.value)
    ensures s.page.error.None? && Count(rows, team) <= 1 ==>
      && Count(s.rows, team) == 1
      && forall i :: 0 <= i < |s.rows| && s.rows[i].team == team ==>
           s.rows[i] == Prediction(team, p.form.runs.value, p.form.wickets.value)
    ensures UniqueTeams(rows) ==> UniqueTeams(s.rows)
  {
    if p.form.runs.None? || p.form.wickets.None? then
      Submission(rows, p.(error := Some(MissingPrediction)))
    else
      Submission(Upsert(rows, team, p.form.runs.value, p.form.wickets.value), Page(Form(None, None), None))
  }
}

=== FILE: prediction_state.dfy ===
/**
 * The round flag of one loaded copy of the app (one browser tab), shared by the
 * pages shown in that tab: a boolean "predictions are open" plus an ordered
 * list of subscribed callbacks. Another tab or device has its own flag, seeded
 * from its own saved value, and never hears of changes made here. Callbacks are compared by
 * identity in the program, so they are modelled as opaque identifiers; calling a
 * callback is modelled as emitting a `Call` record, in order.
 */
module PredictionState {
  import opened Optional

  /** Identity of a subscribed callback function. */
  type CallbackId = nat

  datatype Flag = Flag(open: bool, subscribers: seq<CallbackId>)

  /** One invocation `callback(status)`. */
  datatype Call = Call(callback: CallbackId, status: bool)

  /** The new flag together with the callbacks invoked, in invocation order. */
  datatype Step = Step(flag: Flag, calls: seq<Call>)

  /**
   * The flag as the module starts: closed with no subscribers, unless a saved
   * status was read back from the browser's storage.
   */
  function Load(saved: Option<bool>): (f: Flag)
    ensures f.subscribers == []
    ensures saved.None? ==> !f.open
    ensures saved.Some? ==> f.open == saved.value
  {
    Flag(saved.GetOr(false), [])
  }

  function GetStatus(f: Flag): bool {
    f.open
  }

  /** Every subscriber called once, in subscription order, with `status`. */
  function Notify(subscribers: seq<CallbackId>, status: bool): (calls: seq<Call>)
    ensures |calls| == |subscribers|
    ensures forall i :: 0 <= i < |calls| ==> calls[i] == Call(subscribers[i], status)
  {
    if subscribers == [] then []
    else [Call(subscribers[0], status)] + Notify(subscribers[1..], status)
  }

  /**
   * The effective `setStatus`: store the new status, then invoke the callbacks
   * subscribed at the time of the call. The list iterated over is the one
   * current at the call, so the subscriber list itself is not changed.
   */
  function SetStatus(f: Flag, status: bool): (s: Step)
    ensures GetStatus(s.flag) == status
    ensures s.flag.subscribers == f.subscribers
    ensures |s.calls| == |f.subscribers|
    ensures forall i :: 0 <= i < |s.calls| ==> s.calls[i] == Call(f.subscribers[i], status)
  {
    Step(Flag(status, f.subscribers), Notify(f.subscribers, status))
  }

  /** `subscribe`: append the callback; existing subscribers keep their places. */
  function Subscribe(f: Flag, cb: CallbackId): (g: Flag)
    ensures g.open == f.open
    ensures |g.subscribers| == |f.subscribers| + 1
    ensures g.subscribers[..|f.subscribers|] == f.subscribers
    ensures g.subscribers[|f.subscribers|] == cb
  {
    Flag(f.open, f.subscribers + [cb])
  }

  /** `s` with every occurrence of `cb` removed, the rest in their original order. */
  function Without(s: seq<CallbackId>, cb: CallbackId): (r: seq<CallbackId>)
    ensures cb !in r
    ensures forall x :: x != cb ==> multiset(r)[x] == multiset(s)[x]
    ensures |r| <= |s|
  {
    if s == [] then []
    else
      assert s == [s[0]] + s[1..];
      if s[0] == cb then Without(s[1..], cb)
      else [s[0]] + Without(s[1..], cb)
  }

  /** The function returned by `subscribe`: filter the callback out of the current list. */
  function Unsubscribe(f: Flag, cb: CallbackId): (g: Flag)
    ensures g.open == f.open
    ensures cb !in g.subscribers
    ensures forall x :: x != cb ==> multiset(g.subscribers)[x] == multiset(f.subscribers)[x]
  {
    Flag(f.open, Without(f.subscribers, cb))
  }

  /** Removal works piecewise, so the survivors keep their relative order. */
  lemma {:induction false} WithoutConcat(a: seq<CallbackId>, b: seq<CallbackId>, cb: CallbackId)
    ensures Without(a + b, cb) == Without(a, cb) + Without(b, cb)
  {
    if a == [] {
      assert a + b == b;
    } else {
      assert (a + b)[0] == a[0];
      assert (a + b)[1..] == a[1..] + b;
      WithoutConcat(a[1..], b, cb);
    }
  }

  /** Removing a callback that is not subscribed changes nothing. */
  lemma {:induction false} WithoutAbsent(s: seq<CallbackId>, cb: CallbackId)
    requires cb !in s
    ensures Without(s, cb) == s
  {
    if s != [] {
      assert s[0] != cb;
      assert cb !in s[1..];
      WithoutAbsent(s[1..], cb);
      assert s == [s[0]] + s[1..];
    }
  }

  lemma UnsubscribeIdempotent(f: Flag, cb: CallbackId)
    ensures Unsubscribe(Unsubscribe(f, cb), cb) == Unsubscribe(f, cb)
  {
    WithoutAbsent(Unsubscribe(f, cb).subscribers, cb);
  }

  /** Subscribing a new callback and then calling its unsubscribe function restores the flag. */
  lemma SubscribeUnsubscribe(f: Flag, cb: CallbackId)
    requires cb !in f.subscribers
    ensures Unsubscribe(Subscribe(f, cb), cb) == f
  {
    WithoutConcat(f.subscribers, [cb], cb);
    WithoutAbsent(f.subscribers, cb);
    assert Without([cb], cb) == [];
  }

  /** Unsubscribing one callback leaves another's subscription intact. */
  lemma UnsubscribeKeepsOthers(f: Flag, cb: CallbackId, other: CallbackId)
    requires other in f.subscribers && other != cb
    ensures other in Unsubscribe(f, cb).subscribers
  {
    assert multiset(f.subscribers)[other] > 0;
  }

  /** Operations on the flag, as a history of calls. */
  datatype Op = SetTo(status: bool) | Add(cb: CallbackId) | Remove(cb: CallbackId)

  function Apply(f: Flag, op: Op): Flag {
    match op
    case SetTo(status) => SetStatus(f, status).flag
    case Add(cb) => Subscribe(f, cb)
    case Remove(cb) => Unsubscribe(f, cb)
  }

  /** The flag after running `ops` in order. */
  function Run(f: Flag, ops: seq<Op>): Flag
    decreases |ops|
  {
    if ops == [] then f else Apply(Run(f, ops[..|ops| - 1]), ops[|ops| - 1])
  }

  /** The history that only calls `setStatus`, once per entry of `statuses`. */
  function SetOps(statuses: seq<bool>): (ops: seq<Op>)
    ensures |ops| == |statuses|
    ensures forall i :: 0 <= i < |ops| ==> ops[i] == SetTo(statuses[i])
  {
    seq(|statuses|, i requires 0 <= i < |statuses| => SetTo(statuses[i]))
  }

  /**
   * Successive `setStatus` calls: the flag they leave, which is the history
   * `SetOps(statuses)` run from `f`, and every callback call they made, in order.
   */
  function SetMany(f: Flag, statuses: seq<bool>): (s: Step)
    ensures s.flag == Run(f, SetOps(statuses))
    ensures s.flag.subscribers == f.subscribers
    ensures GetStatus(s.flag) == if statuses == [] then GetStatus(f) else statuses[|statuses| - 1]
    decreases |statuses|
  {
    if statuses == [] then Step(f, [])
    else
      var prev := SetMany(f, statuses[..|statuses| - 1]);
      var next := SetStatus(prev.flag, statuses[|statuses| - 1]);
      assert SetOps(statuses)[..|statuses| - 1] == SetOps(statuses[..|statuses| - 1]);
      Step(next.flag, prev.calls + next.calls)
  }

  /** The argument of the last `SetTo` in `ops`, or `initial` if there is none. */
  function LastSet(ops: seq<Op>, initial: bool): bool
    decreases |ops|
  {
    if ops == [] then initial
    else if ops[|ops| - 1].SetTo? then ops[|ops| - 1].status
    else LastSet(ops[..|ops| - 1], initial)
  }

  /** `getStatus` returns the value most recently passed to `setStatus`. */
  lemma {:induction false} StatusIsLastSet(f: Flag, ops: seq<Op>)
    ensures GetStatus(Run(f, ops)) == LastSet(ops, f.open)
    decreases |ops|
  {
    if ops != [] {
      StatusIsLastSet(f, ops[..|ops| - 1]);
    }
  }

  /** Before any `setStatus`, a freshly loaded flag without a saved value is closed. */
  lemma ClosedUntilSet(ops: seq<Op>)
    requires forall i :: 0 <= i < |ops| ==> !ops[i].SetTo?
    ensures !GetStatus(Run(Load(None), ops))
  {
    StatusIsLastSet(Load(None), ops);
    LastSetWithoutSet(ops, false);
  }

  lemma {:induction false} LastSetWithoutSet(ops: seq<Op>, initial: bool)
    requires forall i :: 0 <= i < |ops| ==> !ops[i].SetTo?
    ensures LastSet(ops, initial) == initial
    decreases |ops|
  {
    if ops != [] {
      LastSetWithoutSet(ops[..|ops| - 1], initial);
    }
  }
}

=== FILE: prediction_table.dfy ===
/**
 * The `predictions` table: one row per submission, keyed by team name. Rows are
 * kept in store order; nothing in the table itself forbids two rows for one
 * team, so uniqueness is a property the operations are shown to preserve.
 */
module PredictionTable {

  datatype Prediction = Prediction(team: string, runs: int, wickets: int)

  /** How many rows belong to `team`. */
  function Count(rows: seq<Prediction>, team: string): nat
    decreases |rows|
  {
    if rows == [] then 0
    else Count(rows[..|rows| - 1], team) + (if rows[|rows| - 1].team == team then 1 else 0)
  }

  /** At most one row per team. */
  predicate UniqueTeams(rows: seq<Prediction>) {
    forall i, j :: 0 <= i < j < |rows| ==> rows[i].team != rows[j].team
  }

  lemma {:induction false} CountZero(rows: seq<Prediction>, team: string)
    ensures Count(rows, team) == 0 <==> forall i :: 0 <= i < |rows| ==> rows[i].team != team
    decreases |rows|
  {
    if rows != [] {
      var init := rows[..|rows| - 1];
      CountZero(init, team);
      assert forall i :: 0 <= i < |init| ==> init[i] == rows[i];
    }
  }

  lemma {:induction false} UniqueCountAtMostOne(rows: seq<Prediction>, team: string)
    requires UniqueTeams(rows)
    ensures Count(rows, team) <= 1
    decreases |rows|
  {
    if rows != [] {
      var init := rows[..|rows| - 1];
      assert UniqueTeams(init);
      UniqueCountAtMostOne(init, team);
      if rows[|rows| - 1].team == team {
        CountZero(init, team);
      }
    }
  }

  /** In a table with unique teams, a team that does not have exactly one row has none. */
  lemma NoRowUnlessSingle(rows: seq<Prediction>, team: string)
    requires UniqueTeams(rows)
    requires Count(rows, team) != 1
    ensures forall i :: 0 <= i < |rows| ==> rows[i].team != team
  {
    UniqueCountAtMostOne(rows, team);
    CountZero(rows, team);
  }

  /** A zeroed prediction row; a row whose team name is empty is not matched by the reset's filter. */
  function Reset(p: Prediction): Prediction {
    if p.team != "" then Prediction(p.team, 0, 0) else p
  }

  /**
   * Set runs and wickets to zero on every row whose team name is not empty. Rows
   * are cleared, not deleted, so every team keeps its row for the next round.
   */
  function ResetAll(rows: seq<Prediction>): (r: seq<Prediction>)
    ensures |r| == |rows|
    ensures forall i :: 0 <= i < |r| ==> r[i].team == rows[i].team
    ensures forall i :: 0 <= i < |r| && rows[i].team != "" ==> r[i].runs == 0 && r[i].wickets == 0
    ensures forall i :: 0 <= i < |r| && rows[i].team == "" ==> r[i] == rows[i]
  {
    seq(|rows|, i requires 0 <= i < |rows| => Reset(rows[i]))
  }

  /** Clearing twice is the same as clearing once. */
  lemma ResetAllIdempotent(rows: seq<Prediction>)
    ensures ResetAll(ResetAll(rows)) == ResetAll(rows)
  {
  }

  /** Overwrite runs and wickets on every row of `team`. */
  function Update(rows: seq<Prediction>, team: string, runs: int, wickets: int): (r: seq<Prediction>)
    ensures |r| == |rows|
    ensures forall i :: 0 <= i < |r| ==> r[i].team == rows[i].team
    ensures forall i :: 0 <= i < |r| && rows[i].team != team ==> r[i] == rows[i]
    ensures forall i :: 0 <= i < |r| && rows[i].team == team ==> r[i] == Prediction(team, runs, wickets)
  {
    seq(|rows|, i requires 0 <= i < |rows| =>
      if rows[i].team == team then Prediction(team, runs, wickets) else rows[i])
  }

  lemma {:induction false} CountSameTeams(a: seq<Prediction>, b: seq<Prediction>, team: string)
    requires |a| == |b|
    requires forall i :: 0 <= i < |a| ==> a[i].team == b[i].team
    ensures Count(a, team) == Count(b, team)
    decreases |a|
  {
    if a != [] {
      CountSameTeams(a[..|a| - 1], b[..|b| - 1], team);
    }
  }

  /**
   * Store a team's prediction. The lookup of an existing row asks for exactly
   * one row: with exactly one match that row is updated; with none (or, were
   * the table ever to hold several for the team, with several) a new row is
   * inserted.
   */
  function Upsert(rows: seq<Prediction>, team: string, runs: int, wickets: int): (r: seq<Prediction>)
    ensures |rows| <= |r| <= |rows| + 1
    ensures forall i :: 0 <= i < |rows| && rows[i].team != team ==> r[i] == rows[i]
    ensures forall i :: |rows| <= i < |r| ==> r[i] == Prediction(team, runs, wickets)
    ensures Count(rows, team) != 1 ==> forall i :: 0 <= i < |rows| ==> r[i] == rows[i]
    ensures Count(rows, team) <= 1 ==> Count(r, team) == 1
    ensures Count(rows, team) <= 1 ==>
      forall i :: 0 <= i < |r| && r[i].team == team ==> r[i] == Prediction(team, runs, wickets)
    ensures UniqueTeams(rows) ==> UniqueTeams(r)
  {
    if Count(rows, team) == 1 then
      var r := Update(rows, team, runs, wickets);
      CountSameTeams(rows, r, team);
      r
    else
      var r := rows + [Prediction(team, runs, wickets)];
      assert r[..|r| - 1] == rows;
      assert UniqueTeams(rows) ==> UniqueTeams(r) by {
        if UniqueTeams(rows) {
          NoRowUnlessSingle(rows, team);
        }
      }
      CountZero(rows, team);
      r
  }

  /**
   * The lookup finds no row when several match, so duplicates are not merged:
   * they grow by one on every submission.
   */
  lemma UpsertWithDuplicates(rows: seq<Prediction>, team: string, runs: int, wickets: int)
    requires Count(rows, team) >= 2
    ensures Count(Upsert(rows, team, runs, wickets), team) == Count(rows, team) + 1
    ensures forall i :: 0 <= i < |rows| ==> Upsert(rows, team, runs, wickets)[i] == rows[i]
  {
    var r := rows + [Prediction(team, runs, wickets)];
    assert r[..|r| - 1] == rows;
  }
}

=== FILE: ranking.dfy ===
/**
 * Leaderboard positions. Both dashboards walk the teams in descending score
 * order, keeping the last score seen: a team whose score differs from the
 * previous one takes its 1-based index as position, a team with the same score
 * shares the previous position ("competition ranking": 80, 80, 60 gives 1, 1, 3).
 */
module Ranking {
  import opened Optional

  /** Rows the admin leaderboard asks the store for. */
  const LeaderboardLimit := 50

  /** A row of the `teams` table; `None` is a score column holding NULL. */
  datatype TeamRow = TeamRow(name: string, score: Option<int>)

  /** A leaderboard line: the team's row annotated with its position. */
  datatype Entry = Entry(name: string, score: Option<int>, position: nat)

  /** What the team dashboard shows for its own team; `found` is false when no row matched. */
  datatype Standing = Standing(score: int, position: nat, found: bool)

  /**
   * The position the walk assigns to row `i`. The walk starts with position 1
   * and a last score of NULL, so the first row is at position 1 whether or not
   * its own score is NULL.
   */
  function Position(rows: seq<TeamRow>, i: nat): (p: nat)
    requires i < |rows|
    ensures 1 <= p <= i + 1
    decreases i
  {
    if i == 0 then 1
    else if rows[i].score != rows[i - 1].score then i + 1
    else Position(rows, i - 1)
  }

  /**
   * A position is one more than the index where the row's run of equal scores
   * starts: every row from there to `i` has the same score, and the row just
   * before it (if any) has a different one.
   */
  lemma {:induction false} PositionIsTieStart(rows: seq<TeamRow>, i: nat)
    requires i < |rows|
    ensures var k := Position(rows, i) - 1;
      && (forall j :: k <= j <= i ==> rows[j].score == rows[i].score)
      && (k == 0 || rows[k - 1].score != rows[i].score)
    decreases i
  {
    if i > 0 && rows[i].score == rows[i - 1].score {
      PositionIsTieStart(rows, i - 1);
    }
  }

  /**
   * `a` comes strictly before `b` in descending score order; a NULL score
   * comes before every number, as the store sorts NULL first in a descending order.
   */
  predicate Above(a: Option<int>, b: Option<int>) {
    match (a, b)
    case (None, Some(_)) => true
    case (Some(x), Some(y)) => x > y
    case _ => false
  }

  /** `a` comes no later than `b` in descending score order. */
  predicate AtLeast(a: Option<int>, b: Option<int>) {
    a == b || Above(a, b)
  }

  /** The rows are in descending score order: each row is at least as high as the next. */
  predicate SortedDesc(rows: seq<TeamRow>) {
    forall i :: 0 < i < |rows| ==> AtLeast(rows[i - 1].score, rows[i].score)
  }

  /** How many of the first `n` rows have a score strictly above `v`. */
  function CountAbove(rows: seq<TeamRow>, v: Option<int>, n: nat): nat
    requires n <= |rows|
    decreases n
  {
    if n == 0 then 0
    else CountAbove(rows, v, n - 1) + (if Above(rows[n - 1].score, v) then 1 else 0)
  }

  lemma {:induction false} CountAboveFirstK(rows: seq<TeamRow>, v: Option<int>, k: nat, n: nat)
    requires n <= |rows|
    requires forall j :: 0 <= j < |rows| ==> (Above(rows[j].score, v) <==> j < k)
    ensures CountAbove(rows, v, n) == if k < n then k else n
    decreases n
  {
    if n > 0 {
      CountAboveFirstK(rows, v, k, n - 1);
    }
  }

  /** Descending order is transitive, and a score never lies strictly above one at least as high. */
  lemma AboveOrder(a: Option<int>, b: Option<int>, c: Option<int>)
    ensures AtLeast(a, b) && AtLeast(b, c) ==> AtLeast(a, c)
    ensures AtLeast(a, b) && Above(b, c) ==> Above(a, c)
    ensures AtLeast(a, b) ==> !Above(b, a)
  {
  }

  /** In a descending list, any earlier row is at least as high as any later one. */
  lemma {:induction false} SortedPair(rows: seq<TeamRow>, i: nat, j: nat)
    requires SortedDesc(rows)
    requires i <= j < |rows|
    ensures AtLeast(rows[i].score, rows[j].score)
    decreases j - i
  {
    if i < j {
      SortedPair(rows, i + 1, j);
      AboveOrder(rows[i].score, rows[i + 1].score, rows[j].score);
    }
  }

  /** In a descending list, every row before a run of equal scores lies strictly above it. */
  lemma AboveBeforeRun(rows: seq<TeamRow>, k: nat, j: nat)
    requires SortedDesc(rows)
    requires j < k < |rows|
    requires rows[k - 1].score != rows[k].score
    ensures Above(rows[j].score, rows[k].score)
  {
    SortedPair(rows, j, k - 1);
    AboveOrder(rows[j].score, rows[k - 1].score, rows[k].score);
  }

  /** In a descending list, no row from index `k` on lies strictly above row `k`. */
  lemma NotAboveAfter(rows: seq<TeamRow>, k: nat, j: nat)
    requires SortedDesc(rows)
    requires k <= j < |rows|
    ensures !Above(rows[j].score, rows[k].score)
  {
    SortedPair(rows, k, j);
    AboveOrder(rows[k].score, rows[j].score, rows[j].score);
  }

  /** In a descending list, the rows strictly above row `i` are exactly those before its run of equal scores. */
  lemma AboveExactlyBeforeRun(rows: seq<TeamRow>, i: nat)
    requires SortedDesc(rows)
    requires i < |rows|
    ensures forall j :: 0 <= j < |rows| ==> (Above(rows[j].score, rows[i].score) <==> j < Position(rows, i) - 1)
  {
    var k := Position(rows, i) - 1;
    PositionIsTieStart(rows, i);
    forall j | 0 <= j < |rows|
      ensures Above(rows[j].score, rows[k].score) <==> j < k
    {
      if j < k {
        AboveBeforeRun(rows, k, j);
      } else {
        NotAboveAfter(rows, k, j);
      }
    }
  }

  /**
   * On a list in descending order, the walk's position is one more than the
   * number of teams with a strictly higher score: the standard competition rank.
   */
  lemma CompetitionRank(rows: seq<TeamRow>, i: nat)
    requires SortedDesc(rows)
    requires i < |rows|
    ensures Position(rows, i) == 1 + CountAbove(rows, rows[i].score, |rows|)
  {
    AboveExactlyBeforeRun(rows, i);
    CountAboveFirstK(rows, rows[i].score, Position(rows, i) - 1, |rows|);
  }

  /** Positions never decrease along the walk. */
  lemma {:induction false} PositionMonotone(rows: seq<TeamRow>, i: nat, j: nat)
    requires i <= j < |rows|
    ensures Position(rows, i) <= Position(rows, j)
    decreases j
  {
    if i < j && rows[j].score == rows[j - 1].score {
      PositionMonotone(rows, i, j - 1);
    }
  }

  /**
   * A row's position depends only on the rows up to it, so capping the list
   * does not change the positions of the rows that remain: the capped admin
   * leaderboard and the uncapped team lookup agree on every row both see.
   */
  lemma {:induction false} PositionPrefix(rows: seq<TeamRow>, n: nat, i: nat)
    requires i < n <= |rows|
    ensures Position(rows[..n], i) == Position(rows, i)
    decreases i
  {
    if i > 0 {
      PositionPrefix(rows, n, i - 1);
    }
  }

  /** Scores 80, 80, 60, 60, 10 take positions 1, 1, 3, 3, 5. */
  lemma TieExample()
    ensures var rows := [TeamRow("a", Some(80)), TeamRow("b", Some(80)), TeamRow("c", Some(60)),
                         TeamRow("d", Some(60)), TeamRow("e", Some(10))];
      Position(rows, 0) == 1 && Position(rows, 1) == 1 && Position(rows, 2) == 3
      && Position(rows, 3) == 3 && Position(rows, 4) == 5
  {
  }

  /** The position walk over a whole list. */
  method Rank(rows: seq<TeamRow>) returns (positions: seq<nat>)
    ensures |positions| == |rows|
    ensures forall i :: 0 <= i < |rows| ==> positions[i] == Position(rows, i)
  {
    var current: nat := 1;
    var last: Option<int> := None;
    positions := [];
    var i := 0;
    while i < |rows|
      invariant i <= |rows|
      invariant |positions| == i
      invariant forall j :: 0 <= j < i ==> positions[j] == Position(rows, j)
      invariant current == (if i == 0 then 1 else Position(rows, i - 1))
      invariant last == (if i == 0 then None else rows[i - 1].score)
    {
      if rows[i].score != last {
        current := i + 1;
        last := rows[i].score;
      }
      positions := positions + [current];
      i := i + 1;
    }
  }

  /**
   * The admin leaderboard: the first `LeaderboardLimit` rows of the descending
   * list, in the order given, each annotated with its position.
   */
  method Leaderboard(rows: seq<TeamRow>) returns (entries: seq<Entry>)
    ensures |entries| == if |rows| < LeaderboardLimit then |rows| else LeaderboardLimit
    ensures forall i :: 0 <= i < |entries| ==>
      entries[i].name == rows[i].name && entries[i].score == rows[i].score
      && entries[i].position == Position(rows, i)
  {
    var n := if |rows| < LeaderboardLimit then |rows| else LeaderboardLimit;
    var top := rows[..n];
    var positions := Rank(top);
    entries := [];
    var i := 0;
    while i < n
      invariant i <= n
      invariant |entries| == i
      invariant forall j :: 0 <= j < i ==>
        entries[j].name == rows[j].name && entries[j].score == rows[j].score
        && entries[j].position == Position(rows, j)
    {
      PositionPrefix(rows, n, i);
      entries := entries + [Entry(top[i].name, top[i].score, positions[i])];
      i := i + 1;
    }
  }

  /** Index of the first row named `name`, or `|rows|` when there is none. */
  function FirstNamed(rows: seq<TeamRow>, name: string): (k: nat)
    ensures k <= |rows|
    ensures forall j :: 0 <= j < k ==> rows[j].name != name
    ensures k < |rows| ==> rows[k].name == name
    decreases |rows|
  {
    if rows == [] then 0
    else if rows[0].name == name then 0
    else 1 + FirstNamed(rows[1..], name)
  }

  /**
   * The team dashboard's lookup: walk the full descending list and stop at the
   * first row named `name`, reporting its score (NULL read as 0) and position;
   * with no such row, report score 0 and position 0.
   */
  method FindStanding(rows: seq<TeamRow>, name: string) returns (s: Standing)
    ensures s.found <==> FirstNamed(rows, name) < |rows|
    ensures !s.found ==> s.score == 0 && s.position == 0
    ensures s.found ==> var k := FirstNamed(rows, name);
      && s.score == rows[k].score.GetOr(0)
      && s.position == Position(rows, k)
      && 1 <= s.position <= k + 1
  {
    var current: nat := 1;
    var last: Option<int> := None;
    var i := 0;
    while i < |rows|
      invariant 0 <= i <= |rows|
      invariant forall j :: 0 <= j < i ==> rows[j].name != name
      invariant current == (if i == 0 then 1 else Position(rows, i - 1))
      invariant last == (if i == 0 then None else rows[i - 1].score)
    {
      if rows[i].score != last {
        current := i + 1;
        last := rows[i].score;
      }
      if rows[i].name == name {
        return Standing(rows[i].score.GetOr(0), current, true);
      }
      i := i + 1;
    }
    return Standing(0, 0, false);
  }
}

=== FILE: round.dfy ===
/**
 * One whole round across the three pages: the administrator opens the round, a
 * team submits a prediction, and the administrator enters the result.
 */
module Round {
  import opened Optional
  import opened PredictionState
  import opened PredictionTable
  import opened Scoring
  import opened AdminDashboard
  import PredictionPage

  /**
   * Open, submit, score: the round ends closed with every named team's
   * prediction reading (0, 0), and the submitting team's score moved by exactly
   * the delta of its prediction against the result; a 0-run guess leaves it as it was.
   */
  lemma FullRound(g: Game, form: ResultsForm, team: string, runs: int, wickets: int,
                  actualRuns: int, actualWickets: int)
    requires UniqueTeams(g.predictions)
    ensures
      var openRound := Toggle(g, Admin(false, form, None));
      var sent := PredictionPage.Submit(openRound.game.predictions, team,
                    PredictionPage.Page(PredictionPage.Form(Some(runs), Some(wickets)), None));
      var scored := SubmitResults(openRound.game.(predictions := sent.rows),
                      openRound.admin.(form := ResultsForm(Some(actualRuns), Some(actualWickets))));
      && GetStatus(openRound.game.flag)
      && scored.admin.error.None?
      && !GetStatus(scored.game.flag)
      && (forall i :: 0 <= i < |scored.game.predictions| && sent.rows[i].team != "" ==>
            scored.game.predictions[i].runs == 0 && scored.game.predictions[i].wickets == 0)
      && (team in g.scores && runs != 0 ==>
            scored.game.scores[team]
              == Some(NewScore(g.scores[team], ScoreDelta(Outcome(actualRuns, actualWickets), Prediction(team, runs, wickets)))))
      && (team in g.scores && runs == 0 ==> scored.game.scores[team] == g.scores[team])
  {
    var openRound := Toggle(g, Admin(false, form, None));
    var sent := PredictionPage.Submit(openRound.game.predictions, team,
                  PredictionPage.Page(PredictionPage.Form(Some(runs), Some(wickets)), None));
    UniqueCountAtMostOne(openRound.game.predictions, team);
    CountZero(sent.rows, team);
    var k :| 0 <= k < |sent.rows| && sent.rows[k].team == team;
    assert sent.rows[k] == Prediction(team, runs, wickets);
    if runs == 0 {
      assert !HasActive(sent.rows, team);
    }
  }
}

=== FILE: scoring.dfy ===
/**
 * Scoring one over: each stored prediction with a non-zero runs guess is
 * compared with the actual runs and wickets, and the resulting change is added
 * to the team's cumulative score, which never drops below zero.
 */
module Scoring {
  import opened Optional
  import opened PredictionTable
  import InputRules

  /** The runs and wickets the administrator entered for the over. */
  datatype Outcome = Outcome(runs: int, wickets: int)

  /** Cumulative score per team name; `None` is a score column holding NULL. */
  type Scores = map<string, Option<int>>

  function Abs(x: int): nat {
    if x < 0 then -x else x
  }

  /** Both numbers lie in the ranges the input fields admit. */
  predicate InRange(runs: int, wickets: int) {
    0 <= runs <= InputRules.MaxRuns && 0 <= wickets <= InputRules.MaxWickets
  }

  /**
   * The score change for one prediction: lose one point per run of error, then
   * gain 10 for the right number of wickets or lose 5 for the wrong one.
   */
  function ScoreDelta(o: Outcome, p: Prediction): (d: int)
    ensures d + Abs(o.runs - p.runs) == (if p.wickets == o.wickets then 10 else -5)
    ensures d <= 10
    ensures d == 10 <==> p.runs == o.runs && p.wickets == o.wickets
    ensures InRange(o.runs, o.wickets) && InRange(p.runs, p.wickets) ==> -41 <= d
  {
    var runError: int := Abs(o.runs - p.runs);
    var runPart: int := if runError > 0 then -runError else 0;
    runPart + (if p.wickets == o.wickets then 10 else -5)
  }

  /**
   * The stored score plus the change, floored at zero. A NULL score counts as 0
   * in the addition.
   */
  function NewScore(stored: Option<int>, d: int): (s: int)
    ensures s >= 0
    ensures s >= stored.GetOr(0) + d
    ensures s == 0 || s == stored.GetOr(0) + d
  {
    if stored.GetOr(0) + d > 0 then stored.GetOr(0) + d else 0
  }

  /** Only a prediction with a non-zero runs guess takes part in scoring. */
  predicate Active(p: Prediction) {
    p.runs != 0
  }

  /** Some active prediction belongs to `team`. */
  predicate HasActive(rows: seq<Prediction>, team: string) {
    exists i :: 0 <= i < |rows| && rows[i].team == team && Active(rows[i])
  }

  /** A team with an active row has one in the tail unless the head is that row. */
  lemma ActiveInTail(rows: seq<Prediction>)
    requires rows != []
    ensures forall t :: HasActive(rows[1..], t) ==> HasActive(rows, t)
    ensures forall t :: HasActive(rows, t) && !HasActive(rows[1..], t) ==> rows[0].team == t && Active(rows[0])
  {
    forall t | HasActive(rows[1..], t)
      ensures HasActive(rows, t)
    {
      var i :| 0 <= i < |rows[1..]| && rows[1..][i].team == t && Active(rows[1..][i]);
      assert rows[i + 1] == rows[1..][i];
    }
    forall t | HasActive(rows, t) && !HasActive(rows[1..], t)
      ensures rows[0].team == t && Active(rows[0])
    {
      var i :| 0 <= i < |rows| && rows[i].team == t && Active(rows[i]);
    }
  }

  /** Process one prediction row against the current scores. */
  function ScoreOne(scores: Scores, o: Outcome, p: Prediction): (r: Scores)
    ensures r.Keys == scores.Keys
    ensures forall t :: t in scores && t != p.team ==> r[t] == scores[t]
    ensures !Active(p) ==> r == scores
    ensures Active(p) && p.team in scores ==> r[p.team] == Some(NewScore(scores[p.team], ScoreDelta(o, p)))
  {
    if Active(p) && p.team in scores then
      scores[p.team := Some(NewScore(scores[p.team], ScoreDelta(o, p)))]
    else scores
  }

  /**
   * Process the prediction rows in order. Each row reads the team's score as it
   * stands at that moment, so the rows of one team would compound.
   */
  function ScoreRows(scores: Scores, o: Outcome, rows: seq<Prediction>): (r: Scores)
    ensures r.Keys == scores.Keys
    ensures forall t :: t in scores && !HasActive(rows, t) ==> r[t] == scores[t]
    ensures forall t :: t in scores && HasActive(rows, t) ==> r[t].Some? && r[t].value >= 0
    ensures UniqueTeams(rows) ==>
      forall i :: 0 <= i < |rows| && Active(rows[i]) && rows[i].team in scores ==>
        r[rows[i].team] == Some(NewScore(scores[rows[i].team], ScoreDelta(o, rows[i])))
    decreases |rows|
  {
    if rows == [] then scores
    else
      var next := ScoreOne(scores, o, rows[0]);
      var r := ScoreRows(next, o, rows[1..]);
      ActiveInTail(rows);
      if UniqueTeams(rows) then
        assert UniqueTeams(rows[1..]);
        assert !HasActive(rows[1..], rows[0].team);
        assert forall i :: 0 < i < |rows| ==> rows[i] == rows[1..][i - 1];
        r
      else r
  }

  /** An exact prediction gains the full 10 points. */
  lemma ExactPredictionExample()
    ensures NewScore(Some(50), ScoreDelta(Outcome(10, 1), Prediction("a", 10, 1))) == 60
  {
  }

  /** A miss of 5 runs and the wrong wickets costs 10, and the floor catches a score of 3. */
  lemma FloorExample()
    ensures ScoreDelta(Outcome(10, 1), Prediction("a", 15, 2)) == -10
    ensures NewScore(Some(3), -10) == 0
  {
  }
}

=== FILE: team_dashboard.dfy ===
/**
 * The team's own page: checking that the team exists, showing its score and
 * position, and letting it go to the prediction form only while the round is
 * open, as far as the page's subscribed copy of the flag knows.
 *
 * The page subscribes inside an asynchronous helper and returns the
 * unsubscribe function from that helper, not from the effect, so nothing ever
 * calls it: every visit to the page leaves one more callback subscribed.
 */
module TeamDashboard {
  import opened PredictionState
  import opened Ranking
  import opened Scoring

  /** What the page does on entry: go home for a missing name, report an unknown team, or load the team. */
  datatype Verification = MissingName | TeamNotFound | Verified

  /**
   * Entry check: without a team name the page goes home at once; otherwise the
   * team is looked up by name and the page proceeds only if a row is returned.
   */
  function VerifyTeam(scores: Scores, name: string): (v: Verification)
    ensures v == MissingName <==> name == ""
    ensures v == Verified <==> name != "" && name in scores
  {
    if name == "" then MissingName
    else if name in scores then Verified
    else TeamNotFound
  }

  /** `rows` lists exactly the teams of `scores`, each with its stored score. */
  predicate Lists(rows: seq<TeamRow>, scores: Scores) {
    && (forall i :: 0 <= i < |rows| ==> rows[i].name in scores && scores[rows[i].name] == rows[i].score)
    && (forall t :: t in scores ==> exists i :: 0 <= i < |rows| && rows[i].name == t)
  }

  /**
   * A team passes the entry check exactly when the standings walk over the
   * listing of all teams finds it.
   */
  lemma VerifiedIffListed(rows: seq<TeamRow>, scores: Scores, name: string)
    requires Lists(rows, scores)
    requires name != ""
    ensures VerifyTeam(scores, name) == Verified <==> exists i :: 0 <= i < |rows| && rows[i].name == name
  {
  }

  /** Where the "new prediction" button leads. */
  datatype Navigation = ToPrediction(team: string) | ClosedError

  /** Go to the prediction form only when the page believes the round is open. */
  function StartNewPrediction(available: bool, team: string): (n: Navigation)
    ensures n.ToPrediction? <==> available
    ensures n.ToPrediction? ==> n.team == team
  {
    if available then ToPrediction(team) else ClosedError
  }

  /**
   * The page's copy of the flag after the callbacks `calls` ran: the status of
   * the last call to its own callback `me`, or its earlier value if none was.
   */
  function Observe(available: bool, calls: seq<Call>, me: CallbackId): bool
    decreases |calls|
  {
    if calls == [] then available
    else if calls[|calls| - 1].callback == me then calls[|calls| - 1].status
    else Observe(available, calls[..|calls| - 1], me)
  }

  lemma {:induction false} ObserveUniform(available: bool, calls: seq<Call>, me: CallbackId, status: bool)
    requires forall i :: 0 <= i < |calls| ==> calls[i].status == status
    ensures (exists i :: 0 <= i < |calls| && calls[i].callback == me) ==> Observe(available, calls, me) == status
    ensures (forall i :: 0 <= i < |calls| ==> calls[i].callback != me) ==> Observe(available, calls, me) == available
    decreases |calls|
  {
    if calls != [] {
      var init := calls[..|calls| - 1];
      assert forall i :: 0 <= i < |init| ==> init[i] == calls[i];
      ObserveUniform(available, init, me, status);
    }
  }

  /**
   * While the page stays subscribed, every `setStatus` brings its copy of the
   * flag up to date; an unsubscribed page keeps its stale copy.
   */
  lemma AvailabilityFollowsFlag(f: Flag, available: bool, me: CallbackId, status: bool)
    ensures me in f.subscribers ==> Observe(available, SetStatus(f, status).calls, me) == GetStatus(SetStatus(f, status).flag)
    ensures me !in f.subscribers ==> Observe(available, SetStatus(f, status).calls, me) == available
  {
    var s := SetStatus(f, status);
    if me in f.subscribers {
      var k :| 0 <= k < |f.subscribers| && f.subscribers[k] == me;
      assert s.calls[k].callback == me;
    }
    ObserveUniform(available, s.calls, me, status);
  }

  /** For a subscribed page, the button leads to the form exactly when the round was last set open. */
  lemma GateFollowsFlag(f: Flag, available: bool, me: CallbackId, status: bool, team: string)
    requires me in f.subscribers
    ensures StartNewPrediction(Observe(available, SetStatus(f, status).calls, me), team).ToPrediction? <==> status
  {
    AvailabilityFollowsFlag(f, available, me, status);
  }

  /**
   * The flag after the team page was entered once per callback in `mounts`:
   * each entry subscribes a fresh callback and none is unsubscribed.
   */
  function MountAll(f: Flag, mounts: seq<CallbackId>): (g: Flag)
    ensures g.open == f.open
    ensures g.subscribers == f.subscribers + mounts
    decreases |mounts|
  {
    if mounts == [] then f
    else
      var prev := MountAll(f, mounts[..|mounts| - 1]);
      assert mounts == mounts[..|mounts| - 1] + [mounts[|mounts| - 1]];
      Subscribe(prev, mounts[|mounts| - 1])
  }

  /**
   * Every earlier visit's callback is still called by each later `setStatus`:
   * one call per visit, on top of the subscribers that were there before.
   */
  lemma StaleMountsStillCalled(f: Flag, mounts: seq<CallbackId>, status: bool, k: nat)
    requires k < |mounts|
    ensures |SetStatus(MountAll(f, mounts), status).calls| == |f.subscribers| + |mounts|
    ensures SetStatus(MountAll(f, mounts), status).calls[|f.subscribers| + k] == Call(mounts[k], status)
  {
  }
}
